=== FILE: README.md ===
# stateful-retrier: the retry state machine in Dafny

This project models the core of a small task queue backed by a relational
table. Callers enqueue named units of work with an encoded payload. A worker
polls the table, claims some pending task, and checks it against a fixed
termination policy: at most 5 retries, and a time-to-live of 10 hours from
creation. It then runs the handler registered under the task's function name
and records the outcome: completed, retried (retry count + 1, still pending)
or terminated.

The store is abstracted as an in-memory table, `Store.Table`. That is a map from
task id to `Tasks.Task` row, together with the next value of the id sequence.
Times and durations are integers (nanoseconds). The clock, the handler's result
and the store's failures are explicit inputs.

Modules:

- `Wrappers` (wrappers.dfy): `Option` and `Result`.
- `Tasks` (task.dfy): the task record, the five statuses and their persisted spelling.
- `Termination` (terminator.dfy): the termination policy.
- `Store` (store.dfy): the table, its well-formedness, and the predicates that say which fields a single-row write changes.
- `Worker` (worker.dfy): the handler registry, claiming, the two single-row updates, `ProcessTask`, one iteration of the polling loop, and a bounded run of that loop.
- `Retrier` (retrier.dfy): enqueueing.

Two points where the Go program's comments and its statements differ; the
model follows the statements. task.go:22-25 documents `CompletedAt` as the time
the task was completed, but no statement writes `completed_at`:
`updateTaskStatus` (worker.go:131-140) sets only `status` and `updated_at`. So
the model leaves `completedAt` unchanged on success. task.go:14 lists `running`
and `failed` among the statuses, but the worker never writes them. In the model,
the worker writes only `completed` and `terminated`.

## Model

| member | source | states |
|---|---|---|
| Tasks.StatusString | task.go:30-40 | each status is spelled as its constant's string, and parsing that string gives the status back |
| Tasks.ParseStatusExact | task.go:30-40 | a text parses to a status exactly when it is that status's spelling |
| Tasks.StatusStringInjective | task.go:31-35 | two statuses have the same spelling only if they are the same status, so the five constants are pairwise distinct |
| Termination.NewTerminator | terminator.go:13-19 | the policy keeps maxRetries, ttl and startTime as given |
| Termination.ShouldTerminate | terminator.go:21-29 | reaching a set retry threshold stops a task whatever its age; outliving a set TTL stops it whatever its retry count; nothing else stops it |
| Termination.UnlimitedNeverTerminates | terminator.go:21-29 | with neither threshold set, no retry count and no age stops a task |
| Termination.BelowThresholdsContinues | terminator.go:21-28 | below the retry threshold and younger than the TTL, a task is not stopped |
| Termination.MonotoneInRetries | terminator.go:22 | if a task is stopped at some retry count, it is stopped at every higher count |
| Termination.MonotoneInTime | terminator.go:25 | if a task is stopped at some instant, it is stopped at every later instant |
| Worker.NewWorker | worker.go:19-24 | a new worker has no handler registered under any key |
| Worker.RegisterFunction | worker.go:30-32 | after registration the key maps to the new handler, and every other key keeps its binding |
| Worker.RegisterLastWins | worker.go:30-32 | registering twice under one key equals registering only the second handler |
| Worker.FetchTask | worker.go:68-93 | returns some pending row as the SELECT reads it, or "none" exactly when no row is pending; a store failure is an error, not "none" |
| Worker.UpdateTaskStatus | worker.go:131-140 | changes only status and updated_at of the row with that id; all other rows and fields stay; a failed write changes nothing and returns the store's error |
| Worker.RecordFailure | worker.go:109-122 | changes only retry_count and updated_at of the row with that id; a failed write changes nothing |
| Worker.PolicyAdmitsBelowMax | worker.go:99-100 | under the fixed policy (5 retries, 10 hours), a task is attempted only while it has fewer than 5 retries |
| Worker.ProcessTask | worker.go:98-128 | exactly one of four outcomes. Terminated: no handler call, table unchanged. Not registered: no call, table unchanged. Failure: retry_count + 1, updated_at refreshed, status kept, the handler's error returned. Success: status completed, retry_count kept. A failed write returns the store's error and changes nothing |
| Worker.Iterate | worker.go:39-62 | with ProcessTask's error classified by its tag: a fetch error or an empty poll changes nothing; for a claimed task only that row may change, and when the policy does not fire the table is exactly the one ProcessTask leaves (so a success writes completed and a failure its retry + 1); the report carries ProcessTask's error and, when the policy fired, the error of the terminated write. A task the policy stops has its status set to terminated with its retry count kept, unless that write (worker.go:56, with its own fault) fails. Rows move only from pending to completed or terminated, and retry counts do not pass 5 on this path. A row becomes terminated only when the policy fired for it, and completed only when its handler succeeded |
| Worker.ErrorText | worker.go:99-127 | the termination text (worker.go:101) starts with "termination conditions met for task " followed by the task's name; the not-registered text (worker.go:106) never starts with that prefix; the handler's error (worker.go:109, 124) and the store's errors (worker.go:120-121, 127) pass through with their own text |
| Worker.TextCheckExact | worker.go:54 | the loop's text comparison accepts exactly the genuine termination error of this task, plus any handler or store error whose text equals its termination message |
| Worker.IterateAsWritten | worker.go:52-61 | only the claimed row may change; when ProcessTask's error does not read as this task's termination message, the table is exactly the one ProcessTask leaves; a row becomes terminated exactly through ProcessTask's error reading as that message; when it does and the terminated write succeeds, only status and updated_at change. Even with the text comparison, rows move only from pending to completed or terminated, id, function name, payload, creation and completion times stay, and retry counts do not pass 5, so the text collision does not break bounded retries |
| Worker.TerminationTextCollision | worker.go:54 | for any claimed task the policy admits and whose handler is registered, a handler error whose text is the task's termination message makes the text comparison set the task to terminated, while the tagged check leaves it pending |
| Worker.StoreTextCollision | worker.go:54-56 | for any claimed task the policy admits and whose handler is registered and succeeds, a failed write of the completed status whose store error reads as the task's termination message makes the text comparison set the task to terminated, while the tagged check leaves it pending |
| Worker.IterateKeepsCounts | worker.go:39-62 | one iteration keeps the per-task handler-call counts, and the counts of failed calls whose failure was written, consistent with retry counts and statuses |
| Worker.ProcessTasks | worker.go:37-63 | over any finite run: rows only evolve (pending to terminal, retries bounded); retry growth is at most the number of handler calls; a called task ends with at most 5 retries; tasks not pending at the start are never called. A task each of whose calls failed with the failure written is called at most 5 times, and at most 5 minus its starting retry count. If every call of the run fails and every write succeeds, each call adds exactly one retry |
| Retrier.ScheduleTask | stateful_retrier.go:24-58 | on success exactly one row is added under a fresh id: the key, the codec's encoding of the payload, status pending, 0 retries, completed_at unset; existing rows are untouched. An encoding error or insert error is returned as is and leaves the table unchanged |
| Retrier.ScheduleThenFetch | stateful_retrier.go:30-55 | a task just enqueued can be claimed and yields its key, encoded payload, pending status and 0 retries; if nothing else was pending, every successful fetch returns exactly it |

## Left out

- SQL text, the connection pool, and `FOR UPDATE SKIP LOCKED`. The lock covers only the SELECT itself, because no transaction surrounds worker.go:78-127 (worker.go:97 says one should be used). Two worker processes may therefore claim and run the same pending task one after the other. The model is sequential, so it does not show this; claiming is modelled as choosing some pending row.
- The infinite loop, the 10-second sleep after an empty poll, and context cancellation: `Worker.Iterate` is one pass of the loop body, and `Worker.ProcessTasks` runs a finite sequence of passes.
- Clock reads: one `now` per iteration stands for the policy's elapsed-time read and the timestamps written in that iteration. `time.Since` saturating at the int64 bounds is not modelled; elapsed time is an unbounded difference.
- Integer widths: ids (int64), durations (int64) and retry counts (Go int) are unbounded integers. Retry counts are naturals. The worker never raises a retry count past 5, so the counter cannot wrap.
- Go's `TaskStatus` is a string type that could hold any text. The model uses the five-valued datatype; the persisted spelling is `Tasks.StatusString`.
- JSON encoding is an opaque codec passed to `Retrier.ScheduleTask`, and decoding is not modelled. The round trip therefore ends at the encoded payload, not the decoded one.
- Handlers: their effects are out of scope; their result is the `HandlerOutcome` input. The sample handlers in retryable_functions.go and the wiring in main.go are not part of this model.
- Logging of errors and outcomes.
- The "no rows in result set" text comparison in fetchTask is replaced by the tagged `FetchResult`: `NoRows` versus `FetchFailed`.
- Worker.Iterate and Worker.ProcessTasks classify ProcessTask's error by its tag, not by the text comparison of worker.go:54. Worker.IterateAsWritten keeps the text comparison; the Findings section gives the difference.
- The two separate writes without a transaction, and crashes between handler execution and the status write: the model is sequential and crash-free.
- `NewStatefulRetrier` and the unused `terminator` and `functions` fields of `StatefulRetrier`.
- Worker.ProcessTasks: the bound of at most 5 handler calls is proved per task only when each of that task's calls failed and its retry write succeeded. A failed retry write (worker.go:120-121) loses the increment, and the Go loop then lets the handler run again.

## Findings

| source | as written | input that shows it | evidently intended | confidence | as-written member | corrected member |
|---|---|---|---|---|---|---|
| worker.go:54 | the loop decides that ProcessTask reported a termination by comparing the error text with "termination conditions met for task " + name | for example a pending task "f" with 0 retries whose handler fails with an error reading "termination conditions met for task f": the row is set to terminated after one attempt, though the policy did not fire. A store error with that text from the completed write (worker.go:127) would do the same to a task whose handler succeeded, provided the database driver ever produces an error with that exact text; no driver code is part of this model | only a policy termination sets a task to terminated; a handler failure leaves it pending for a retry | medium; not executed | Worker.TerminationTextCollision | Worker.Iterate |

=== FILE: retrier.dfy ===
/**
 Enqueueing: encode the payload with an opaque codec, build a pending record
 with no retries, and insert it under the next id of the store's sequence.
 */
module Retrier {
  import opened Wrappers
  import opened Tasks
  import opened Store
  import Worker

  datatype CodecError = CodecError(message: string)

  /** Errors are returned as the codec or the store reported them. */
  datatype ScheduleError = EncodeFailed(codecErr: CodecError) | InsertFailed(dbErr: DbError)

  datatype Scheduled = Scheduled(table: Table, err: Option<ScheduleError>)

  /** The row an enqueue of `key` with encoded payload `data` creates. */
  predicate FreshPending(row: Task, id: TaskId, key: FunctionKey, data: string, createdAt: Time, updatedAt: Time)
  {
    && row.id == id
    && row.functionName == key
    && row.payload == data
    && row.status == Pending
    && row.retryCount == 0
    && row.createdAt == createdAt
    && row.updatedAt == updatedAt
    && row.completedAt.None?
  }

  /**
   `encode` is the payload codec; `createdAt` and `updatedAt` are two clock
   readings; `fault` is the store rejecting the INSERT. On success exactly one
   row is added and every existing row is untouched; on either error nothing
   changes.
   */
  function ScheduleTask<P>(t: Table, key: FunctionKey, payload: P, encode: P -> Result<string, CodecError>,
                           createdAt: Time, updatedAt: Time, fault: Option<DbError>): (r: Scheduled)
    requires Valid(t)
    ensures Valid(r.table)
    ensures encode(payload).Err? ==> r == Scheduled(t, Some(EncodeFailed(encode(payload).error)))
    ensures encode(payload).Ok? && fault.Some? ==> r == Scheduled(t, Some(InsertFailed(fault.value)))
    ensures r.err.None? <==> encode(payload).Ok? && fault.None?
    ensures r.err.None? ==>
              && t.nextId !in t.rows
              && r.table.rows.Keys == t.rows.Keys + {t.nextId}
              && |r.table.rows| == |t.rows| + 1
              && (forall id :: id in t.rows ==> r.table.rows[id] == t.rows[id])
              && FreshPending(r.table.rows[t.nextId], t.nextId, key, encode(payload).value, createdAt, updatedAt)
  {
    match encode(payload)
    case Err(e) => Scheduled(t, Some(EncodeFailed(e)))
    case Ok(data) =>
      if fault.Some? then
        Scheduled(t, Some(InsertFailed(fault.value)))
      else
        var row := Task(t.nextId, key, data, Pending, 0, createdAt, updatedAt, None);
        assert t.nextId !in t.rows;
        Scheduled(Table(t.rows[t.nextId := row], t.nextId + 1), None)
  }

  /**
   A task just enqueued is claimable, and a claim yields its key, encoded
   payload, pending status and zero retries; when nothing else was pending,
   every successful fetch yields exactly it.
   */
  lemma ScheduleThenFetch<P>(t: Table, key: FunctionKey, payload: P, encode: P -> Result<string, CodecError>,
                             createdAt: Time, updatedAt: Time, fetched: Worker.FetchResult)
    requires Valid(t)
    requires ScheduleTask(t, key, payload, encode, createdAt, updatedAt, None).err.None?
    ensures var t' := ScheduleTask(t, key, payload, encode, createdAt, updatedAt, None).table;
            var claimed := Scan(t'.rows[t.nextId]);
            && Worker.Claimable(t', claimed)
            && FreshPending(claimed, t.nextId, key, encode(payload).value, createdAt, updatedAt)
            && (!HasPending(t) && Worker.ValidFetch(t', fetched) && !fetched.FetchFailed? ==>
                  fetched == Worker.Found(claimed))
  {
    var t' := ScheduleTask(t, key, payload, encode, createdAt, updatedAt, None).table;
    if !HasPending(t) && Worker.ValidFetch(t', fetched) && !fetched.FetchFailed? {
      assert HasPending(t') by {
        assert t'.rows[t.nextId].status == Pending;
      }
    }
  }
}

=== FILE: store.dfy ===
/**
 The tasks table, abstracted from the relational store as an in-memory map
 from id to row, together with the sequence that hands out fresh ids.
 */
module Store {
  import opened Wrappers
  import opened Tasks

  /** An error reported by the store for a statement. */
  datatype DbError = DbError(message: string)

  datatype Table = Table(rows: map<TaskId, Task>, nextId: TaskId)

  /** Every row sits under its own id, and the id sequence is past every id in use. */
  predicate Valid(t: Table)
  {
    forall id :: id in t.rows ==> id < t.nextId && t.rows[id].id == id
  }

  predicate HasPending(t: Table)
  {
    exists id :: id in t.rows && t.rows[id].status == Pending
  }

  /** The record a SELECT of the task columns yields: completed_at is not read. */
  function Scan(row: Task): Task
  {
    row.(completedAt := None)
  }

  /** At most row `id` differs between the two tables; no row appears or disappears. */
  predicate OnlyRowChanged(t: Table, t': Table, id: TaskId)
  {
    && t'.nextId == t.nextId
    && t'.rows.Keys == t.rows.Keys
    && forall k :: k in t.rows && k != id ==> t'.rows[k] == t.rows[k]
  }

  /** `after` is `before` with status set to `s` and updated_at to `now`, nothing else. */
  predicate StatusWritten(before: Task, after: Task, s: TaskStatus, now: Time)
  {
    && after.status == s
    && after.updatedAt == now
    && after.(status := before.status, updatedAt := before.updatedAt) == before
  }

  /** `after` is `before` with retry_count set to `count` and updated_at to `now`, nothing else. */
  predicate RetryWritten(before: Task, after: Task, count: nat, now: Time)
  {
    && after.retryCount == count
    && after.updatedAt == now
    && after.(retryCount := before.retryCount, updatedAt := before.updatedAt) == before
  }

  /** The table after a statement, and the store's error if the statement failed. */
  datatype Write = Write(table: Table, err: Option<DbError>)
}

=== FILE: task.dfy ===
/**
 The persisted shape of a unit of work: the task record and the five-valued
 status vocabulary with its textual spelling.
 */
module Tasks {
  import opened Wrappers

  /** Instants, in nanoseconds on some fixed clock. */
  type Time = int
  /** Durations, in nanoseconds (Go's time.Duration). */
  type Duration = int
  /** Store-assigned row identifier. */
  type TaskId = int
  /** Key under which a handler is registered. */
  type FunctionKey = string

  datatype TaskStatus = Pending | Running | Completed | Failed | Terminated

  /** The persisted spelling of a status, as TaskStatus.String returns it. */
  function StatusString(s: TaskStatus): (r: string)
    ensures ParseStatus(r) == Some(s)
  {
    match s
    case Pending => "pending"
    case Running => "running"
    case Completed => "completed"
    case Failed => "failed"
    case Terminated => "terminated"
  }

  /** Reads a persisted status column back; only the five spellings are statuses. */
  function ParseStatus(text: string): Option<TaskStatus>
  {
    if text == "pending" then Some(Pending)
    else if text == "running" then Some(Running)
    else if text == "completed" then Some(Completed)
    else if text == "failed" then Some(Failed)
    else if text == "terminated" then Some(Terminated)
    else None
  }

  /** Parsing accepts exactly the spellings StatusString produces. */
  lemma ParseStatusExact(text: string, s: TaskStatus)
    ensures ParseStatus(text) == Some(s) <==> text == StatusString(s)
  {
  }

  /** Distinct statuses have distinct spellings, so a status is recoverable from its text. */
  lemma StatusStringInjective(a: TaskStatus, b: TaskStatus)
    ensures StatusString(a) == StatusString(b) <==> a == b
  {
    if StatusString(a) == StatusString(b) {
      assert ParseStatus(StatusString(a)) == ParseStatus(StatusString(b));
    }
  }

  /**
   A row of the tasks table. completedAt is None while the column is unset
   (Go's zero time.Time); retryCount starts at 0 and only grows.
   */
  datatype Task = Task(
    id: TaskId,
    functionName: FunctionKey,
    payload: string,
    status: TaskStatus,
    retryCount: nat,
    createdAt: Time,
    updatedAt: Time,
    completedAt: Option<Time>)
}

=== FILE: terminator.dfy ===
/**
 The termination policy: a pure decision, from thresholds fixed at
 construction, whether a task should stop being retried. The instant at
 which time.Since reads the clock is the explicit `now` argument.
 */
module Termination {
  import opened Tasks

  /** maxRetries <= 0 and ttl <= 0 each mean "no limit". */
  datatype Terminator = Terminator(maxRetries: int, ttl: Duration, startTime: Time)

  function NewTerminator(maxRetries: int, ttl: Duration, startTime: Time): (t: Terminator)
    ensures t.maxRetries == maxRetries && t.ttl == ttl && t.startTime == startTime
  {
    Terminator(maxRetries, ttl, startTime)
  }

  /** Time since the anchor, as seen at instant `now`. */
  function Elapsed(t: Terminator, now: Time): Duration
  {
    now - t.startTime
  }

  /** The retry threshold is set and has been reached. */
  predicate RetriesExhausted(t: Terminator, retryCount: int)
  {
    t.maxRetries > 0 && retryCount >= t.maxRetries
  }

  /** The time-to-live is set and has run out. */
  predicate Expired(t: Terminator, now: Time)
  {
    t.ttl > 0 && Elapsed(t, now) >= t.ttl
  }

  /** Either threshold alone is enough to stop; nothing else stops a task. */
  function ShouldTerminate(t: Terminator, retryCount: int, now: Time): (r: bool)
    ensures RetriesExhausted(t, retryCount) ==> r
    ensures Expired(t, now) ==> r
    ensures r ==> RetriesExhausted(t, retryCount) || Expired(t, now)
  {
    if t.maxRetries > 0 && retryCount >= t.maxRetries then
      true
    else if t.ttl > 0 && now - t.startTime >= t.ttl then
      true
    else
      false
  }

  /** A policy with neither threshold set never stops a task. */
  lemma UnlimitedNeverTerminates(t: Terminator, retryCount: int, now: Time)
    requires t.maxRetries <= 0 && t.ttl <= 0
    ensures !ShouldTerminate(t, retryCount, now)
  {
  }

  /** Below both thresholds the task keeps being retried. */
  lemma BelowThresholdsContinues(t: Terminator, retryCount: int, now: Time)
    requires retryCount < t.maxRetries && Elapsed(t, now) < t.ttl
    ensures !ShouldTerminate(t, retryCount, now)
  {
  }

  /** More retries never revoke a decision to stop. */
  lemma MonotoneInRetries(t: Terminator, retryCount: int, retryCount': int, now: Time)
    requires retryCount <= retryCount'
    ensures ShouldTerminate(t, retryCount, now) ==> ShouldTerminate(t, retryCount', now)
  {
  }

  /** A later clock reading never revokes a decision to stop. */
  lemma MonotoneInTime(t: Terminator, retryCount: int, now: Time, now': Time)
    requires now <= now'
    ensures ShouldTerminate(t, retryCount, now) ==> ShouldTerminate(t, retryCount, now')
  {
  }
}

=== FILE: worker.dfy ===
/**
 The worker: the handler registry, claiming a pending task, processing it
 against the fixed termination policy, and one iteration of the polling loop.
 A handler's success or failure is an input; the store's faults are inputs.
 */
module Worker {
  import opened Wrappers
  import opened Tasks
  import opened Termination
  import opened Store

  /** Retry threshold of the policy every task is processed under. */
  const MaxRetries: nat := 5
  const Hour: Duration := 3_600_000_000_000
  /** Time-to-live of the policy every task is processed under: ten hours. */
  const Ttl: Duration := 10 * Hour

  datatype HandlerError = HandlerError(message: string)

  /** What the handler returned when it was called. */
  datatype HandlerOutcome = Succeeded | FailedWith(err: HandlerError)

  /** The errors ProcessTask reports, as a tagged type instead of error text. */
  datatype ProcessError =
    | TerminationMet(functionName: FunctionKey)
    | NotRegistered(functionName: FunctionKey)
    | HandlerFailed(cause: HandlerError)
    | WriteFailed(dbErr: DbError)

  /** A worker is its registry of handlers; H is the (opaque) handler type. */
  datatype Worker<H> = Worker(functions: map<FunctionKey, H>)

  /** A worker starts with no handler registered. */
  function NewWorker<H>(): (w: Worker<H>)
    ensures |w.functions| == 0
  {
    Worker(map[])
  }

  /** Last registration under a key wins; every other key keeps its binding. */
  function RegisterFunction<H>(w: Worker<H>, key: FunctionKey, f: H): (w': Worker<H>)
    ensures key in w'.functions && w'.functions[key] == f
    ensures w'.functions.Keys == w.functions.Keys + {key}
    ensures forall k :: k in w.functions && k != key ==> w'.functions[k] == w.functions[k]
  {
    Worker(w.functions[key := f])
  }

  /** Registering twice under one key is the same as registering the second handler only. */
  lemma RegisterLastWins<H>(w: Worker<H>, key: FunctionKey, f: H, g: H)
    ensures RegisterFunction(RegisterFunction(w, key, f), key, g) == RegisterFunction(w, key, g)
  {
  }

  // ---------------------------------------------------------------------
  // Claiming a task

  datatype FetchResult = Found(task: Task) | NoRows | FetchFailed(err: DbError)

  /** `task` is what selecting pending row task.id yields. */
  predicate Claimable(t: Table, task: Task)
  {
    task.id in t.rows && t.rows[task.id].status == Pending && task == Scan(t.rows[task.id])
  }

  /** The results a fetch on `t` may give: some pending row, "none" only when no row is pending, or a store error. */
  predicate ValidFetch(t: Table, f: FetchResult)
  {
    match f
    case Found(task) => Claimable(t, task)
    case NoRows => !HasPending(t)
    case FetchFailed(_) => true
  }

  /**
   Selects some pending row, with no ordering among them; "no rows" is an
   empty result rather than an error. `fault` is the store failing the query.
   */
  method FetchTask(t: Table, fault: Option<DbError>) returns (r: FetchResult)
    requires Valid(t)
    ensures ValidFetch(t, r)
    ensures fault.Some? ==> r == FetchFailed(fault.value)
    ensures fault.None? ==> !r.FetchFailed? && (r.NoRows? <==> !HasPending(t))
  {
    if fault.Some? {
      return FetchFailed(fault.value);
    }
    if id :| id in t.rows && t.rows[id].status == Pending {
      r := Found(Scan(t.rows[id]));
    } else {
      r := NoRows;
    }
  }

  // ---------------------------------------------------------------------
  // Single-row writes

  /** UPDATE of status and updated_at for row `id`; a missing row is zero rows affected. */
  function UpdateTaskStatus(t: Table, id: TaskId, s: TaskStatus, now: Time, fault: Option<DbError>): (r: Write)
    ensures fault.Some? ==> r == Write(t, fault)
    ensures fault.None? ==> r.err.None? && OnlyRowChanged(t, r.table, id)
    ensures fault.None? && id in t.rows ==> StatusWritten(t.rows[id], r.table.rows[id], s, now)
    ensures id !in t.rows ==> r.table == t
    ensures Valid(t) ==> Valid(r.table)
  {
    if fault.Some? then
      Write(t, fault)
    else if id in t.rows then
      Write(t.(rows := t.rows[id := t.rows[id].(status := s, updatedAt := now)]), None)
    else
      Write(t, None)
  }

  /** UPDATE of retry_count and updated_at for row `id`, after a failed attempt. */
  function RecordFailure(t: Table, id: TaskId, count: nat, now: Time, fault: Option<DbError>): (r: Write)
    ensures fault.Some? ==> r == Write(t, fault)
    ensures fault.None? ==> r.err.None? && OnlyRowChanged(t, r.table, id)
    ensures fault.None? && id in t.rows ==> RetryWritten(t.rows[id], r.table.rows[id], count, now)
    ensures id !in t.rows ==> r.table == t
    ensures Valid(t) ==> Valid(r.table)
  {
    if fault.Some? then
      Write(t, fault)
    else if id in t.rows then
      Write(t.(rows := t.rows[id := t.rows[id].(retryCount := count, updatedAt := now)]), None)
    else
      Write(t, None)
  }

  // ---------------------------------------------------------------------
  // Processing one claimed task

  /** The policy every task is processed under, anchored at its creation. */
  function Policy(createdAt: Time): Terminator
  {
    NewTerminator(MaxRetries, Ttl, createdAt)
  }

  /** The policy says `task` must not be attempted again at `now`. */
  predicate Stops(task: Task, now: Time)
  {
    ShouldTerminate(Policy(task.createdAt), task.retryCount, now)
  }

  /** The fixed policy lets a task through only while it has fewer than MaxRetries failures. */
  lemma PolicyAdmitsBelowMax(task: Task, now: Time)
    ensures !Stops(task, now) ==> task.retryCount < MaxRetries
  {
  }

  /** The table after ProcessTask, its error, and whether the handler was called. */
  datatype Processed = Processed(table: Table, err: Option<ProcessError>, invoked: bool)

  /**
   Ends in exactly one of four ways: terminated (no call, nothing written),
   not registered (no call, nothing written), failure (retry_count + 1,
   status kept), or completed (status completed, retry_count kept).
   `outcome` is what the handler returns if called; `fault` fails the write.
   */
  function ProcessTask<H>(w: Worker<H>, t: Table, task: Task, now: Time, outcome: HandlerOutcome,
                          fault: Option<DbError>): (r: Processed)
    ensures r.invoked <==> !Stops(task, now) && task.functionName in w.functions
    ensures r.invoked ==> task.retryCount < MaxRetries
    ensures !r.invoked ==> r.table == t
    ensures Stops(task, now) ==> r.err == Some(TerminationMet(task.functionName))
    ensures !Stops(task, now) && task.functionName !in w.functions ==>
              r.err == Some(NotRegistered(task.functionName))
    ensures r.invoked && fault.Some? ==> r.table == t && r.err == Some(WriteFailed(fault.value))
    ensures r.invoked && fault.None? ==> OnlyRowChanged(t, r.table, task.id)
    ensures r.invoked && fault.None? && outcome.FailedWith? ==>
              && r.err == Some(HandlerFailed(outcome.err))
              && (task.id in t.rows ==>
                    RetryWritten(t.rows[task.id], r.table.rows[task.id], task.retryCount + 1, now))
    ensures r.invoked && fault.None? && outcome.Succeeded? ==>
              && r.err.None?
              && (task.id in t.rows ==> StatusWritten(t.rows[task.id], r.table.rows[task.id], Completed, now))
    ensures Valid(t) ==> Valid(r.table)
  {
    PolicyAdmitsBelowMax(task, now);
    if Stops(task, now) then
      Processed(t, Some(TerminationMet(task.functionName)), false)
    else if task.functionName !in w.functions then
      Processed(t, Some(NotRegistered(task.functionName)), false)
    else
      match outcome
      case FailedWith(e) =>
        var wr := RecordFailure(t, task.id, task.retryCount + 1, now, fault);
        Processed(wr.table, Some(if wr.err.Some? then WriteFailed(wr.err.value) else HandlerFailed(e)), true)
      case Succeeded =>
        var wr := UpdateTaskStatus(t, task.id, Completed, now, fault);
        Processed(wr.table, if wr.err.Some? then Some(WriteFailed(wr.err.value)) else None, true)
  }

  // ---------------------------------------------------------------------
  // One iteration of the polling loop

  /** What an iteration reports: a fetch error, an empty poll, or a processed task. */
  datatype Report =
    | FetchError(fetchErr: DbError)
    | Idle
    | Ran(task: Task, processErr: Option<ProcessError>, statusErr: Option<DbError>)

  datatype Iteration = Iteration(table: Table, report: Report, invoked: bool)

  /** The statuses the worker may move a row between: pending to a terminal value, or nowhere. */
  predicate StatusMove(a: TaskStatus, b: TaskStatus)
  {
    a == b || (a == Pending && (b == Completed || b == Terminated))
  }

  function Max(a: int, b: int): int
  {
    if a < b then b else a
  }

  /**
   How the worker may change a row: identity, key, payload and timestamps of
   creation and completion stay; retry_count grows but not past MaxRetries
   (unless it already was); status moves only from pending to a terminal value.
   */
  predicate RowEvolves(a: Task, b: Task)
  {
    && b.id == a.id
    && b.functionName == a.functionName
    && b.payload == a.payload
    && b.createdAt == a.createdAt
    && b.completedAt == a.completedAt
    && a.retryCount <= b.retryCount <= Max(a.retryCount, MaxRetries)
    && StatusMove(a.status, b.status)
  }

  /** Every row of `t` evolved into its row in `t'`, and no row appeared or vanished. */
  predicate Evolves(t: Table, t': Table)
  {
    && t'.nextId == t.nextId
    && t'.rows.Keys == t.rows.Keys
    && forall id :: id in t.rows ==> RowEvolves(t.rows[id], t'.rows[id])
  }

  lemma EvolvesTransitive(t0: Table, t1: Table, t2: Table)
    requires Evolves(t0, t1) && Evolves(t1, t2)
    ensures Evolves(t0, t2)
  {
  }

  /** Classifies the error of ProcessTask by its tag: was it the policy that fired? */
  predicate IsTermination(e: ProcessError, name: FunctionKey)
  {
    e == TerminationMet(name)
  }

  /**
   The rest of an iteration once ProcessTask returned: a termination marks the
   row terminated, by a write of its own that `statusFault` may fail.
   */
  function Conclude(p: Processed, task: Task, terminate: bool, now: Time, statusFault: Option<DbError>): Iteration
  {
    if terminate then
      var wr := UpdateTaskStatus(p.table, task.id, Terminated, now, statusFault);
      Iteration(wr.table, Ran(task, p.err, wr.err), p.invoked)
    else
      Iteration(p.table, Ran(task, p.err, None), p.invoked)
  }

  /**
   One pass of the loop body, given what the fetch returned. Store errors on
   fetch are reported and the loop goes on; an empty poll is Idle (the Go loop
   then sleeps); a task the policy stops is marked terminated. `fault` fails
   ProcessTask's write and `statusFault` the later write of the terminated status.
   */
  function Iterate<H>(w: Worker<H>, t: Table, fetched: FetchResult, now: Time, outcome: HandlerOutcome,
                      fault: Option<DbError>, statusFault: Option<DbError>): (r: Iteration)
    requires ValidFetch(t, fetched)
    ensures fetched.FetchFailed? ==> r == Iteration(t, FetchError(fetched.err), false)
    ensures fetched.NoRows? ==> r == Iteration(t, Idle, false)
    ensures fetched.Found? ==>
              && r.report.Ran? && r.report.task == fetched.task
              && r.report.processErr == ProcessTask(w, t, fetched.task, now, outcome, fault).err
              && r.report.statusErr == (if Stops(fetched.task, now) then statusFault else None)
    ensures Valid(t) ==> Valid(r.table)
    ensures Evolves(t, r.table)
    ensures fetched.Found? ==> OnlyRowChanged(t, r.table, fetched.task.id)
    ensures fetched.Found? && !Stops(fetched.task, now) ==>
              r.table == ProcessTask(w, t, fetched.task, now, outcome, fault).table
    ensures r.invoked ==> fetched.Found? && t.rows[fetched.task.id].retryCount < MaxRetries
    ensures r.invoked <==> fetched.Found? && !Stops(fetched.task, now) && fetched.task.functionName in w.functions
    ensures forall id :: id in t.rows && !(fetched.Found? && r.invoked && id == fetched.task.id) ==>
              r.table.rows[id].retryCount == t.rows[id].retryCount
    ensures fetched.Found? && r.invoked ==>
              r.table.rows[fetched.task.id].retryCount ==
              t.rows[fetched.task.id].retryCount + (if outcome.FailedWith? && fault.None? then 1 else 0)
    ensures fetched.Found? && Stops(fetched.task, now) && statusFault.None? ==>
              StatusWritten(t.rows[fetched.task.id], r.table.rows[fetched.task.id], Terminated, now)
    ensures forall id :: id in t.rows && r.table.rows[id].status == Terminated && t.rows[id].status != Terminated ==>
              fetched.Found? && id == fetched.task.id && Stops(fetched.task, now)
    ensures forall id :: id in t.rows && r.table.rows[id].status == Completed && t.rows[id].status != Completed ==>
              r.invoked && id == fetched.task.id && outcome.Succeeded?
  {
    match fetched
    case FetchFailed(e) => Iteration(t, FetchError(e), false)
    case NoRows => Iteration(t, Idle, false)
    case Found(task) =>
      var p := ProcessTask(w, t, task, now, outcome, fault);
      Conclude(p, task, p.err.Some? && IsTermination(p.err.value, task.functionName), now, statusFault)
  }

  // ---------------------------------------------------------------------
  // The loop's termination check as written: by error text

  const TerminationPrefix: string := "termination conditions met for task "

  /**
   The text of each error, as its Error method spells it: ProcessTask builds
   the termination and not-registered messages itself and passes the handler's
   and the store's errors through unchanged. Only a termination it builds
   starts with the termination prefix, and the task's name follows it.
   */
  function ErrorText(e: ProcessError): (r: string)
    ensures e.TerminationMet? ==> TerminationPrefix <= r && r[|TerminationPrefix|..] == e.functionName
    ensures e.NotRegistered? ==> !(TerminationPrefix <= r)
    ensures e.HandlerFailed? ==> r == e.cause.message
    ensures e.WriteFailed? ==> r == e.dbErr.message
  {
    match e
    case TerminationMet(name) =>
      var r := TerminationPrefix + name;
      assert r[|TerminationPrefix|..] == name;
      r
    case NotRegistered(name) =>
      var r := "function " + name + " not registered";
      assert r[0] != TerminationPrefix[0];
      r
    case HandlerFailed(cause) => cause.message
    case WriteFailed(cause) => cause.message
  }

  /** The loop's check as written: the error's text equals the termination message for this task. */
  predicate IsTerminationAsWritten(e: ProcessError, name: FunctionKey)
  {
    ErrorText(e) == TerminationPrefix + name
  }

  /**
   The text check accepts a real termination, and besides it exactly the
   handler's and the store's errors that carry the termination message.
   */
  lemma TextCheckExact(e: ProcessError, name: FunctionKey)
    ensures IsTerminationAsWritten(e, name) <==>
              || IsTermination(e, name)
              || ((e.HandlerFailed? || e.WriteFailed?) && ErrorText(e) == TerminationPrefix + name)
  {
    if e.TerminationMet? && IsTerminationAsWritten(e, name) {
      assert e.functionName == ErrorText(e)[|TerminationPrefix|..] == (TerminationPrefix + name)[|TerminationPrefix|..];
    }
  }

  /**
   One pass of the loop body with the text comparison of worker.go:54: the
   row is marked terminated whenever ProcessTask's error reads as the
   termination message of this task, whatever produced that error.
   */
  function IterateAsWritten<H>(w: Worker<H>, t: Table, fetched: FetchResult, now: Time, outcome: HandlerOutcome,
                               fault: Option<DbError>, statusFault: Option<DbError>): (r: Iteration)
    requires ValidFetch(t, fetched)
    ensures r.table.rows.Keys == t.rows.Keys
    ensures Evolves(t, r.table)
    ensures !fetched.Found? ==> r.table == t
    ensures fetched.Found? ==> OnlyRowChanged(t, r.table, fetched.task.id)
    ensures fetched.Found? ==>
              var p := ProcessTask(w, t, fetched.task, now, outcome, fault);
              !(p.err.Some? && IsTerminationAsWritten(p.err.value, fetched.task.functionName)) ==> r.table == p.table
    ensures fetched.Found? && statusFault.None? ==>
              var p := ProcessTask(w, t, fetched.task, now, outcome, fault);
              p.err.Some? && IsTerminationAsWritten(p.err.value, fetched.task.functionName) ==>
                StatusWritten(p.table.rows[fetched.task.id], r.table.rows[fetched.task.id], Terminated, now)
    ensures forall id :: id in t.rows && r.table.rows[id].status == Terminated && t.rows[id].status != Terminated ==>
              && fetched.Found? && id == fetched.task.id
              && var p := ProcessTask(w, t, fetched.task, now, outcome, fault);
                 p.err.Some? && IsTerminationAsWritten(p.err.value, fetched.task.functionName)
  {
    match fetched
    case FetchFailed(e) => Iteration(t, FetchError(e), false)
    case NoRows => Iteration(t, Idle, false)
    case Found(task) =>
      var p := ProcessTask(w, t, task, now, outcome, fault);
      assert Evolves(t, p.table);
      Conclude(p, task, p.err.Some? && IsTerminationAsWritten(p.err.value, task.functionName), now, statusFault)
  }

  /**
   For any claimed task the policy admits and whose handler is registered: a
   handler failure whose error text is the task's termination message gets the
   task marked terminated by the text check, although the policy did not fire;
   the tagged check leaves it pending for a retry.
   */
  lemma TerminationTextCollision<H>(w: Worker<H>, t: Table, row: Task, now: Time)
    requires Claimable(t, row)
    requires !Stops(row, now) && row.functionName in w.functions
    ensures var outcome := FailedWith(HandlerError(TerminationPrefix + row.functionName));
            && IterateAsWritten(w, t, Found(row), now, outcome, None, None).table.rows[row.id].status == Terminated
            && Iterate(w, t, Found(row), now, outcome, None, None).table.rows[row.id].status == Pending
  {
    var outcome := FailedWith(HandlerError(TerminationPrefix + row.functionName));
    var p := ProcessTask(w, t, row, now, outcome, None);
    assert p.err == Some(HandlerFailed(outcome.err));
    assert IsTerminationAsWritten(p.err.value, row.functionName);
    assert RetryWritten(t.rows[row.id], p.table.rows[row.id], row.retryCount + 1, now);
  }

  /**
   For any claimed task the policy admits and whose handler is registered: a
   handler that succeeds, followed by a failed write of the completed status
   whose store error text is the task's termination message, gets the task
   marked terminated by the text check when the next write succeeds; the
   tagged check leaves it pending.
   */
  lemma StoreTextCollision<H>(w: Worker<H>, t: Table, row: Task, now: Time)
    requires Claimable(t, row)
    requires !Stops(row, now) && row.functionName in w.functions
    ensures var fault := Some(DbError(TerminationPrefix + row.functionName));
            && IterateAsWritten(w, t, Found(row), now, Succeeded, fault, None).table.rows[row.id].status == Terminated
            && Iterate(w, t, Found(row), now, Succeeded, fault, None).table.rows[row.id].status == Pending
  {
    var fault := Some(DbError(TerminationPrefix + row.functionName));
    var p := ProcessTask(w, t, row, now, Succeeded, fault);
    assert p.err == Some(WriteFailed(fault.value));
    assert IsTerminationAsWritten(p.err.value, row.functionName);
    assert p.table == t;
  }

  // ---------------------------------------------------------------------
  // A bounded run of the loop

  /**
   The inputs of one loop iteration: the clock, the handler's result, and the
   store's faults on the fetch, on ProcessTask's write, and on the write of the
   terminated status.
   */
  datatype Tick = Tick(fetchFault: Option<DbError>, now: Time, outcome: HandlerOutcome, writeFault: Option<DbError>,
                       statusFault: Option<DbError>)

  /** Every handler call fails and every write succeeds. */
  predicate AlwaysFailingHealthy(ticks: seq<Tick>)
  {
    forall i :: 0 <= i < |ticks| ==> ticks[i].outcome.FailedWith? && ticks[i].writeFault.None?
  }

  /**
   The per-task call counts `calls` agree with how `t` evolved from `t0`:
   retry_count grew by at most the calls, a called task has at most MaxRetries
   failures, tasks not pending at the start were never called, and when
   `exact` holds each call added exactly one failure.
   */
  predicate Counted(t0: Table, t: Table, calls: map<TaskId, nat>, exact: bool)
    requires Evolves(t0, t)
  {
    && calls.Keys == t0.rows.Keys
    && (forall id :: id in t0.rows ==> t.rows[id].retryCount - t0.rows[id].retryCount <= calls[id])
    && (forall id :: id in t0.rows && calls[id] > 0 ==> t.rows[id].retryCount <= MaxRetries)
    && (forall id :: id in t0.rows && t0.rows[id].status != Pending ==> calls[id] == 0)
    && (exact ==> forall id :: id in t0.rows ==> t.rows[id].retryCount == t0.rows[id].retryCount + calls[id])
  }

  /**
   `clean` counts, per task, the calls that failed and whose retry write
   succeeded: at most the calls, and each one added a failure to retry_count.
   */
  predicate CleanCounted(t0: Table, t: Table, calls: map<TaskId, nat>, clean: map<TaskId, nat>)
    requires Evolves(t0, t) && calls.Keys == t0.rows.Keys
  {
    && clean.Keys == t0.rows.Keys
    && (forall id :: id in t0.rows ==> clean[id] <= calls[id])
    && (forall id :: id in t0.rows ==> t.rows[id].retryCount - t0.rows[id].retryCount >= clean[id])
  }

  /** The handler was called, failed, and its failure was written. */
  predicate Recorded(it: Iteration, tick: Tick)
  {
    it.invoked && tick.outcome.FailedWith? && tick.writeFault.None?
  }

  /** One iteration keeps the call counts in step with the table. */
  lemma IterateKeepsCounts<H>(w: Worker<H>, t0: Table, t: Table, calls: map<TaskId, nat>, clean: map<TaskId, nat>,
                              exact: bool, fetched: FetchResult, tick: Tick)
    requires Evolves(t0, t) && Counted(t0, t, calls, exact) && CleanCounted(t0, t, calls, clean)
    requires ValidFetch(t, fetched)
    requires exact ==> tick.outcome.FailedWith? && tick.writeFault.None?
    ensures var it := Iterate(w, t, fetched, tick.now, tick.outcome, tick.writeFault, tick.statusFault);
            var calls' := if it.invoked then calls[fetched.task.id := calls[fetched.task.id] + 1] else calls;
            var clean' := if Recorded(it, tick) then clean[fetched.task.id := clean[fetched.task.id] + 1] else clean;
            Evolves(t0, it.table) && Counted(t0, it.table, calls', exact) && CleanCounted(t0, it.table, calls', clean')
  {
    var it := Iterate(w, t, fetched, tick.now, tick.outcome, tick.writeFault, tick.statusFault);
    EvolvesTransitive(t0, t, it.table);
  }

  /**
   Runs one loop iteration per tick, counting handler calls per task, and
   among them the calls that failed with the failure written. Retries are
   bounded: a task whose handler was called ends with at most MaxRetries
   failures; only pending tasks are ever called; a task whose every call
   failed and was written was called at most MaxRetries times in all; and when
   every call fails and every write succeeds, each call adds exactly one failure.
   */
  method ProcessTasks<H>(w: Worker<H>, t: Table, ticks: seq<Tick>)
    returns (final: Table, calls: map<TaskId, nat>, clean: map<TaskId, nat>)
    requires Valid(t)
    ensures Valid(final)
    ensures Evolves(t, final)
    ensures calls.Keys == t.rows.Keys && clean.Keys == t.rows.Keys
    ensures forall id :: id in t.rows ==> final.rows[id].retryCount - t.rows[id].retryCount <= calls[id]
    ensures forall id :: id in t.rows && calls[id] > 0 ==> final.rows[id].retryCount <= MaxRetries
    ensures forall id :: id in t.rows && t.rows[id].status != Pending ==> calls[id] == 0
    ensures forall id :: id in t.rows ==> clean[id] <= calls[id]
    ensures forall id :: id in t.rows && calls[id] == clean[id] ==> calls[id] <= MaxRetries
    ensures forall id :: id in t.rows && calls[id] == clean[id] && calls[id] > 0 ==>
              t.rows[id].retryCount + calls[id] <= MaxRetries
    ensures AlwaysFailingHealthy(ticks) ==>
              forall id :: id in t.rows ==>
                final.rows[id].retryCount == t.rows[id].retryCount + calls[id] && calls[id] <= MaxRetries
  {
    final := t;
    calls := map id | id in t.rows :: 0;
    clean := map id | id in t.rows :: 0;
    var i := 0;
    while i < |ticks|
      invariant 0 <= i <= |ticks|
      invariant Valid(final)
      invariant Evolves(t, final)
      invariant Counted(t, final, calls, AlwaysFailingHealthy(ticks))
      invariant CleanCounted(t, final, calls, clean)
    {
      var tick := ticks[i];
      var fetched := FetchTask(final, tick.fetchFault);
      IterateKeepsCounts(w, t, final, calls, clean, AlwaysFailingHealthy(ticks), fetched, tick);
      var it := Iterate(w, final, fetched, tick.now, tick.outcome, tick.writeFault, tick.statusFault);
      if it.invoked {
        calls := calls[fetched.task.id := calls[fetched.task.id] + 1];
      }
      if Recorded(it, tick) {
        clean := clean[fetched.task.id := clean[fetched.task.id] + 1];
      }
      final := it.table;
      i := i + 1;
    }
  }
}

=== FILE: wrappers.dfy ===
/** Optional values and results with an error, shared by the other modules. */
module Wrappers {

  /** A value that may be absent (a nil reference or nil error in Go). */
  datatype Option<T> = None | Some(value: T)

  /** A computation that produced a value or failed with an error. */
  datatype Result<T, E> = Ok(value: T) | Err(error: E)
}
